=== FILE: README.md ===
# Roller coaster curve validator — a Dafny model

The roller-coaster program reads a table of curve pieces. Each row holds a
`formula` in `x`, a `start_x` and an `end_x`. The program checks that the rows
form one continuous curve before it draws anything. The checks run in a fixed
order, and the first failure ends the run:

1. the table is not empty and has the columns `formula`, `start_x` and `end_x`;
2. every formula parses;
3. every bound reads as a number or parses as an expression;
4. in every row, the resolved start is strictly below the resolved end;
5. every row starts exactly where the previous row ends;
6. at each junction, the previous formula evaluated at the next row's start
   equals the next formula evaluated at the previous row's end.

This project models that validator and proves its accept/reject behaviour. It
has four modules:

- `Symbolic` (`symbolic.dfy`) is the computer-algebra library, which the model
  treats as an opaque capability. An `Engine<E>` has four fields. `sympify`
  parses text into an expression. `toFloat` gives an expression's numeric
  value. `subs` substitutes a value for `x`. `parseFloat` is the language's own
  `float()` on text. `Resolve` is `float(sympify(text))`, so a bound that
  resolves always parses. Every theorem holds for every engine.
- `Checks` (`checks.dfy`) works on a table that has all three columns, seen as
  a `seq<Segment>`. Each source loop becomes a recursive function that stops at
  the first row that fails. Its contract says exactly when it passes and which
  row and fault it reports. `ValidCurve` states the invariants of an accepted
  curve as quantified predicates. `ValidateCurve` passes exactly on
  `ValidCurve`. Two lemmas draw consequences from `ValidCurve`: the intervals
  follow one another in order, and together they cover the curve's domain
  without a hole.
- `RollerCoaster` (`roller_coaster.dfy`) covers the table-level entry points.
  A `DataFrame` is a header plus rows of cell text; every row has a cell for
  every column. `ReadAndValidateCsv` is the reader's checks after the file has
  been read. `ValidateFormulaColumn` and `ValidateCsv` are the two
  validators. `Run` is the program up to drawing.
- `Scenarios` (`scenarios.dfy`) replays the tables of the unit tests against a
  small concrete engine.

Rows are numbered from 1 in every failure. A junction check reports the later
row of the junction. The program prints a diagnostic and exits; the model
instead returns a `Failure` that carries the error kind, the row and, where
there is one, the offending value or values. The program also lets some Python exceptions escape. Each
escaped exception becomes a failure too, since the run still stops there with
a non-zero status:

- `float(sympify(bound))` raising becomes `Unresolvable`;
- a `KeyError` for a missing bound column inside `validate_csv` becomes
  `MissingColumn`;
- `sympify` raising inside the junction-value loop becomes `Unparsable`.

Some behaviours of the code are easy to misread. The model keeps them as
the code has them:

- a formula is valid when it parses. The code does not check that `x` is its
  only free symbol;
- the reader accepts any bound that parses, including one with no numeric
  value, such as `x**2`. Such a bound is only caught later, when
  `validate_x_values` fails to resolve it;
- a successful run hands back the table unchanged. It does not keep the
  resolved bounds;
- the junction-value comparison is crossed: each formula is evaluated at the
  other row's bound text (roller_coaster.py:121-124). This agrees with
  evaluating each formula at its own bound whenever the two junction texts
  parse to the same expression. It can differ when they only share a float
  value, as with `pi` and `3.141592653589793`;
- of all the program's messages, only the interval check's names a row. The
  model gives a row to every row-level fault. The formula, bound, continuity
  and junction-value faults get theirs this way; a junction fault reports the
  later row of the junction.

## Model

| member | source | states |
|---|---|---|
| `Symbolic.Resolve` | roller_coaster.py:94-95 | a bound's numeric value is `float(sympify(text))`; any bound that resolves also parses, and one that does not parse never resolves |
| `Checks.FormulaFault` | roller_coaster.py:54-60 | a formula is rejected exactly when it fails to parse, and the fault names that formula |
| `Checks.FormulasFrom` | roller_coaster.py:83-86 | the formula loop passes exactly when every formula parses; otherwise it reports the first formula that does not parse, with its 1-based row, and every earlier formula parses |
| `Checks.XValueFault` | roller_coaster.py:66-76 | a bound that reads as a number is accepted; otherwise the check falls back to parsing; it rejects exactly when both fail, and names the bound |
| `Checks.ResolvableBoundIsAccepted` | roller_coaster.py:66-76 | any bound with a numeric value passes the bound check |
| `Checks.BoundFault` | roller_coaster.py:38-40 | a row passes exactly when both bounds pass; `start_x` is judged before `end_x` |
| `Checks.BoundSyntaxFrom` | roller_coaster.py:38-40 | the reader's bound loop passes exactly when every bound of every row passes; otherwise it reports the first failing row |
| `Checks.IntervalFault` | roller_coaster.py:91-101 | a row passes exactly when both bounds resolve and start < end (strict); a start that does not resolve is reported before the end; an inverted interval carries both values, with end <= start |
| `Checks.XValuesFrom` | roller_coaster.py:89-101 | the interval loop passes exactly when every row has an ordered interval; otherwise it reports the first row that does not, at row i + 1 |
| `Checks.XValuesRejectsFirstInverted` | roller_coaster.py:99-101 | when all bounds resolve, the interval check fails exactly when some row has end <= start (so equal bounds fail too), and reports the first such row as an inverted interval |
| `Checks.JunctionFault` | roller_coaster.py:106-115 | a junction passes exactly when the later start and the earlier end resolve to the same number; the later start is resolved first; a gap carries both values, which differ |
| `Checks.ContinuityFrom` | roller_coaster.py:105-115 | the continuity loop passes exactly when every junction is shared; otherwise it reports the first row whose start differs from the previous end |
| `Checks.ValidateContinuity` | roller_coaster.py:104-105 | a table with at most one row always passes the continuity check, because `range(1, len)` is empty |
| `Checks.TransitionFault` | roller_coaster.py:119-127 | a junction passes exactly when both formulas and both junction bounds parse and the earlier formula at the later start equals the later formula at the earlier end; any fault is either a parse failure or a discontinuity |
| `Checks.CrossedComparisonAtSharedPoint` | roller_coaster.py:121-125 | when the earlier end and the later start parse to the same expression, the crossed comparison holds exactly when each formula evaluated at its own bound gives the same value |
| `Checks.SmoothTransitionFrom` | roller_coaster.py:119-127 | the junction-value loop passes exactly when the crossed comparison holds at every junction; otherwise it reports the first row where it fails |
| `Checks.ValidateSmoothTransition` | roller_coaster.py:118-119 | a table with at most one row always passes the junction-value check |
| `Checks.ValidateCurve` | roller_coaster.py:130-134 | with all columns present, validation passes exactly on a valid curve. A failure is the first failing stage's own verdict, so it names that stage's first failing row: a formula fault is the formula loop's, an unresolvable bound or inverted interval the interval loop's, a gap the continuity loop's, a discontinuity the junction-value loop's. The stages run in order: an interval fault means every formula parsed; a gap or discontinuity means every interval was ordered; a discontinuity means every junction was shared. A parse failure in the junction-value loop can never surface |
| `Checks.ValidateBounds` | roller_coaster.py:132-134 | the interval, continuity and junction-value checks run in that order and pass exactly when all three pass; a failure is the verdict of the first one that fails, at a row of the table, and every earlier check passed |
| `Checks.OrderedCurveHasOnlyGaps` | roller_coaster.py:106-113 | once the interval check passes, the continuity loop can fail only on a gap, never on an unresolvable bound |
| `Checks.ConnectedCurveHasOnlyDiscontinuities` | roller_coaster.py:119-125 | once every formula parses and the interval check passes, the junction-value loop can fail only on a discontinuity, never on a parse failure |
| `Checks.AcceptedIntervalsIncrease` | roller_coaster.py:99-115 | in an accepted curve, every later segment starts at or after the end of every earlier one, and strictly after its start |
| `Checks.AcceptedCurveCovers` | roller_coaster.py:99-115 | in an accepted curve, every point between the first start and the end of segment k lies inside some segment up to k |
| `RollerCoaster.ReadAndValidateCsv` | roller_coaster.py:13-45 | it succeeds exactly on a non-empty table that has the three columns, whose formulas all parse and whose bounds all pass the bound check, and it then returns the table unchanged. An empty table is reported first; missing columns are reported in the order formula, start_x, end_x, and only the first missing one; a missing column is reported only when one of the three is absent. A formula fault names the first row whose formula does not parse. A bound fault comes only when every formula parses, and names the first row with a rejected bound |
| `RollerCoaster.ValidateFormulaColumn` | roller_coaster.py:78-86 | a missing formula column is reported before any row is examined; otherwise it passes exactly when every formula parses, and fails at the first formula that does not |
| `RollerCoaster.ValidateCsv` | roller_coaster.py:130-134 | with all three columns it agrees with `Checks.ValidateCurve` and passes exactly on a valid curve. Without a formula column it fails on that. Whenever the formula column check fails, its verdict (the missing column or the first formula that does not parse) is the result, before any bound column is looked up. With no rows it passes. A missing bound column is reported, start_x before end_x, exactly when every formula parsed |
| `RollerCoaster.Run` | roller_coaster.py:136-137 | the program succeeds exactly on an accepted curve and then hands back the table unchanged; it reports an empty input exactly for an empty table; a missing column is the reader's verdict, so it is the first of formula, start_x, end_x that is absent; a row fault names an existing row and is never a parse failure from the junction-value loop. A formula or bound fault is the reader's verdict. Any other row fault comes after the reader accepted the table, and is `ValidateCurve`'s verdict, the first failing row of the first failing stage. Later-stage faults imply that the earlier stages held |
| `Scenarios.XValueCases` | roller_coaster_test.py:11-15 | "3" and "x**2" pass the bound check, even though "x**2" has no numeric value; "invalid_value" is rejected. The stand-in engine refuses to parse "invalid_value" because the test expects that; sympy itself would read it as a symbol |
| `Scenarios.FormulaColumnMissing` | roller_coaster_test.py:17-21 | the test table without a formula column is rejected for the missing column |
| `Scenarios.InvertedFirstRow` | roller_coaster_test.py:23-27 | the test table that runs from 4 down to 0 fails the interval check at row 1 |
| `Scenarios.GapAtSecondRow` | roller_coaster_test.py:29-33 | the test table whose second row starts at 3 after an end at 2 fails continuity at row 2 |
| `Scenarios.DiscontinuityAtSecondRow` | roller_coaster_test.py:35-39 | `x**2` at the later start 2 and `sin(x) + cos(x)` at the earlier end 3 disagree, so the junction-value check fails at row 2 |
| `Scenarios.SquareTwiceIsValid` | roller_coaster.py:99-125 | the two `x**2` pieces on [0, 2] and [2, 4] satisfy every invariant of an accepted curve |
| `Scenarios.SquareTwiceIsAccepted` | roller_coaster.py:130-137 | two pieces of `x**2` that meet at 2 are accepted, and the table is returned unchanged |
| `Scenarios.SymbolicBoundPassesReaderButNotRun` | roller_coaster.py:66-76 | the reader accepts the bound `x**2`, and the run then stops at row 1 because that bound does not resolve |
| `Scenarios.PiJunction` | roller_coaster.py:104-134 | for segments ending at `pi` and starting at `3.141592653589793`, continuity holds, each formula at its own bound gives the same value, and validation still fails at row 2 with a discontinuity |
| `Scenarios.CrossedJunctionRejectsPi` | roller_coaster.py:118-127 | rows ending at `pi` and starting at `3.141592653589793` pass continuity, and each formula at its own bound gives 0, yet the run stops at row 2 because `sin(x)` at the literal differs from `0` at `pi` |

## Left out

- Reading the file with pandas, and the handlers for `ParserError` and other exceptions around it (roller_coaster.py:16, 47-52): this is file I/O through a foreign library. The model starts from the table that was read.
- Pandas type inference: cells are modelled as their text, and reading a number directly is the engine's `parseFloat`. In a column pandas reads as numbers, a cell is a number rather than text, so `2` reaches sympy as an integer in an integer column and as a float in a float column. Where sympy treats `Float(4.0)` and `Integer(4)` as unequal, that can change the `!=` of the junction-value check (roller_coaster.py:121-125): with `start_x` = [0, 2] and `end_x` = [2, 4.5], the two `x**2` values at 2 compare an integer with a float. A `sympify` keyed on text cannot express this difference.
- The two `input()` prompts (roller_coaster.py:9-10): they are interactive global state.
- The printed diagnostics and the `Row …` progress line (roller_coaster.py:97): a failure carries only its kind, row and value.
- The inside of sympy: parsing, numeric evaluation and substitution are the engine's fields, and expression equality is the `==` of the engine's expression type. Nothing is assumed about them.
- Floating point: bounds are exact `real` numbers. NaN and IEEE rounding in `<` and `!=` are not modelled.
- The unit tests expect `x + 5` and `log(x)` to be rejected as formulas (roller_coaster_test.py:8-9), but `is_valid_formula` accepts any text `sympify` parses, and both parse; the model follows the code.
- Drawing, appending and saving the curve (roller_coaster.py:140-157): this is rendering through a foreign plotting library.
- Pandas index labels: `iterrows` row numbers are taken to be positions, as for the default index of a freshly read file.

=== FILE: checks.dfy ===
/**
 The row checks of the piecewise-curve validator. A curve is an ordered
 sequence of segments; each check walks the rows in order and stops at the
 first row that fails, reporting that row numbered from 1.
 */
module Checks {
  import opened Symbolic

  /** One row of the curve table: `formula` in `x`, valid from `startX` to
      `endX`. The bounds are kept as written and resolved on demand. */
  datatype Segment = Segment(formula: string, startX: string, endX: string)

  /** What went wrong at a row. */
  datatype Fault =
    | InvalidFormula(formula: string)           // the formula does not parse
    | InvalidBound(text: string)                // a bound is neither a number nor an expression
    | Unresolvable(text: string)                // float(sympify(bound)) raises
    | Unparsable(text: string)                  // sympify raises inside the junction-value loop
    | InvertedInterval(start: real, end: real)  // not start < end
    | DomainGap(previousEnd: real, start: real) // start differs from the previous row's end
    | Discontinuity                             // the two formulas disagree at the junction

  /** The one diagnostic a run reports before it stops. */
  datatype Failure =
    | EmptyInput
    | MissingColumn(column: string)
    | AtRow(row: nat, fault: Fault)

  /** The outcome of a check that returns nothing on success. */
  datatype Verdict = Pass | Fail(failure: Failure)

  /** The outcome of a check that hands back its input on success. */
  datatype Result<+T> = Ok(value: T) | Err(failure: Failure)

  /** Run `first`; only when it passes does `next` decide. */
  function AndThen(first: Verdict, next: Verdict): Verdict {
    if first.Fail? then first else next
  }

  // ---------------------------------------------------------------------------
  // Formula validity

  /** `is_valid_formula`: a formula is valid exactly when it parses. */
  function FormulaFault<E>(e: Engine<E>, formula: string): (r: Option<Fault>)
    ensures r.None? <==> Parses(e, formula)
    ensures r.Some? ==> r.value == InvalidFormula(formula)
  {
    if Parses(e, formula) then None else Some(InvalidFormula(formula))
  }

  /** The formula loop from index `from` on: rejects at the first formula
      that does not parse, numbering rows from 1. */
  function FormulasFrom<E>(e: Engine<E>, formulas: seq<string>, from: nat): (v: Verdict)
    requires from <= |formulas|
    ensures v.Pass? <==> forall i :: from <= i < |formulas| ==> Parses(e, formulas[i])
    ensures v.Fail? ==>
      && v.failure.AtRow?
      && from < v.failure.row <= |formulas|
      && !Parses(e, formulas[v.failure.row - 1])
      && v.failure.fault == InvalidFormula(formulas[v.failure.row - 1])
      && forall j :: from <= j < v.failure.row - 1 ==> Parses(e, formulas[j])
    decreases |formulas| - from
  {
    if from == |formulas| then Pass
    else match FormulaFault(e, formulas[from])
      case Some(f) => Fail(AtRow(from + 1, f))
      case None => FormulasFrom(e, formulas, from + 1)
  }

  /** The formula loop over a whole column. */
  function ValidateFormulas<E>(e: Engine<E>, formulas: seq<string>): Verdict {
    FormulasFrom(e, formulas, 0)
  }

  // ---------------------------------------------------------------------------
  // Bound validity

  /** `validate_x_value`: a bound is accepted when it reads as a number, and
      otherwise when it parses as an expression. */
  function XValueFault<E>(e: Engine<E>, text: string): (r: Option<Fault>)
    ensures r.Some? <==> !IsNumber(e, text) && !Parses(e, text)
    ensures r.Some? ==> r.value == InvalidBound(text)
  {
    if IsNumber(e, text) then None
    else if Parses(e, text) then None
    else Some(InvalidBound(text))
  }

  /** A bound that resolves to a number always passes `validate_x_value`. */
  lemma ResolvableBoundIsAccepted<E>(e: Engine<E>, text: string)
    requires Resolve(e, text).Some?
    ensures XValueFault(e, text).None?
  {
  }

  /** The per-row bound check: `start_x` first, then `end_x`. */
  function BoundFault<E>(e: Engine<E>, s: Segment): (r: Option<Fault>)
    ensures r.None? <==> XValueFault(e, s.startX).None? && XValueFault(e, s.endX).None?
    ensures r.Some? && XValueFault(e, s.startX).Some? ==> r == XValueFault(e, s.startX)
    ensures r.Some? && XValueFault(e, s.startX).None? ==> r == XValueFault(e, s.endX)
  {
    if XValueFault(e, s.startX).Some? then XValueFault(e, s.startX)
    else XValueFault(e, s.endX)
  }

  /** The bound loop of the reader from index `from` on: rejects at the first
      row with a bound that is neither a number nor an expression. */
  function BoundSyntaxFrom<E>(e: Engine<E>, segs: seq<Segment>, from: nat): (v: Verdict)
    requires from <= |segs|
    ensures v.Pass? <==> forall i :: from <= i < |segs| ==>
      XValueFault(e, segs[i].startX).None? && XValueFault(e, segs[i].endX).None?
    ensures v.Fail? ==>
      && v.failure.AtRow?
      && from < v.failure.row <= |segs|
      && BoundFault(e, segs[v.failure.row - 1]) == Some(v.failure.fault)
      && forall j :: from <= j < v.failure.row - 1 ==> BoundFault(e, segs[j]).None?
    decreases |segs| - from
  {
    if from == |segs| then Pass
    else match BoundFault(e, segs[from])
      case Some(f) => Fail(AtRow(from + 1, f))
      case None => BoundSyntaxFrom(e, segs, from + 1)
  }

  /** The bound loop over every row. */
  function ValidateBoundSyntax<E>(e: Engine<E>, segs: seq<Segment>): Verdict {
    BoundSyntaxFrom(e, segs, 0)
  }

  // ---------------------------------------------------------------------------
  // Interval ordering

  /** Both bounds of the segment resolve and the start is strictly below the end. */
  predicate OrderedInterval<E>(e: Engine<E>, s: Segment) {
    && Resolve(e, s.startX).Some?
    && Resolve(e, s.endX).Some?
    && Resolve(e, s.startX).value < Resolve(e, s.endX).value
  }

  /** The body of the interval loop for one row. */
  function IntervalFault<E>(e: Engine<E>, s: Segment): (r: Option<Fault>)
    ensures r.None? <==> OrderedInterval(e, s)
    ensures Resolve(e, s.startX).None? ==> r == Some(Unresolvable(s.startX))
    ensures Resolve(e, s.startX).Some? && Resolve(e, s.endX).None? ==> r == Some(Unresolvable(s.endX))
    ensures r.Some? ==> r.value.Unresolvable? || r.value.InvertedInterval?
    ensures r.Some? && r.value.InvertedInterval? ==>
      && Resolve(e, s.startX) == Some(r.value.start)
      && Resolve(e, s.endX) == Some(r.value.end)
      && r.value.end <= r.value.start
  {
    match Resolve(e, s.startX)
    case None => Some(Unresolvable(s.startX))
    case Some(a) =>
      match Resolve(e, s.endX)
      case None => Some(Unresolvable(s.endX))
      case Some(b) => if a < b then None else Some(InvertedInterval(a, b))
  }

  /** The interval loop from index `from` on: rejects at the first row whose
      bounds do not resolve or are not strictly increasing. */
  function XValuesFrom<E>(e: Engine<E>, segs: seq<Segment>, from: nat): (v: Verdict)
    requires from <= |segs|
    ensures v.Pass? <==> forall i :: from <= i < |segs| ==> OrderedInterval(e, segs[i])
    ensures v.Fail? ==>
      && v.failure.AtRow?
      && from < v.failure.row <= |segs|
      && !OrderedInterval(e, segs[v.failure.row - 1])
      && IntervalFault(e, segs[v.failure.row - 1]) == Some(v.failure.fault)
      && forall j :: from <= j < v.failure.row - 1 ==> OrderedInterval(e, segs[j])
    decreases |segs| - from
  {
    if from == |segs| then Pass
    else match IntervalFault(e, segs[from])
      case Some(f) => Fail(AtRow(from + 1, f))
      case None => XValuesFrom(e, segs, from + 1)
  }

  /** `validate_x_values`: the interval loop over every row. */
  function ValidateXValues<E>(e: Engine<E>, segs: seq<Segment>): Verdict {
    XValuesFrom(e, segs, 0)
  }

  /** When every bound resolves, the interval check rejects exactly when some
      row has `start >= end`, and it names the first such row, even when the
      two bounds are equal. */
  lemma XValuesRejectsFirstInverted<E>(e: Engine<E>, segs: seq<Segment>)
    requires forall i :: 0 <= i < |segs| ==>
      Resolve(e, segs[i].startX).Some? && Resolve(e, segs[i].endX).Some?
    ensures ValidateXValues(e, segs).Fail? <==>
      exists i :: 0 <= i < |segs| && Resolve(e, segs[i].endX).value <= Resolve(e, segs[i].startX).value
    ensures ValidateXValues(e, segs).Fail? ==>
      var f := ValidateXValues(e, segs).failure;
      && f.AtRow?
      && f.fault == InvertedInterval(Resolve(e, segs[f.row - 1].startX).value, Resolve(e, segs[f.row - 1].endX).value)
      && forall j :: 0 <= j < f.row - 1 ==>
        Resolve(e, segs[j].startX).value < Resolve(e, segs[j].endX).value
  {
  }

  // ---------------------------------------------------------------------------
  // Domain continuity

  /** The later segment starts exactly where the earlier one ends. */
  predicate SharedJunction<E>(e: Engine<E>, prev: Segment, cur: Segment) {
    && Resolve(e, prev.endX).Some?
    && Resolve(e, cur.startX) == Resolve(e, prev.endX)
  }

  /** The body of the continuity loop for one junction: the later start is
      resolved first, then the earlier end. */
  function JunctionFault<E>(e: Engine<E>, prev: Segment, cur: Segment): (r: Option<Fault>)
    ensures r.None? <==> SharedJunction(e, prev, cur)
    ensures Resolve(e, cur.startX).None? ==> r == Some(Unresolvable(cur.startX))
    ensures r.Some? ==> r.value.Unresolvable? || r.value.DomainGap?
    ensures r.Some? && r.value.DomainGap? ==>
      && Resolve(e, prev.endX) == Some(r.value.previousEnd)
      && Resolve(e, cur.startX) == Some(r.value.start)
      && r.value.previousEnd != r.value.start
  {
    match Resolve(e, cur.startX)
    case None => Some(Unresolvable(cur.startX))
    case Some(a) =>
      match Resolve(e, prev.endX)
      case None => Some(Unresolvable(prev.endX))
      case Some(b) => if a != b then Some(DomainGap(b, a)) else None
  }

  /** The continuity loop from the junction before index `from` on: rejects
      at the first row whose start differs from the previous row's end,
      naming the later row of the junction. */
  function ContinuityFrom<E>(e: Engine<E>, segs: seq<Segment>, from: nat): (v: Verdict)
    requires 1 <= from
    ensures v.Pass? <==> forall i :: from <= i < |segs| ==> SharedJunction(e, segs[i - 1], segs[i])
    ensures v.Fail? ==>
      && v.failure.AtRow?
      && from < v.failure.row <= |segs|
      && !SharedJunction(e, segs[v.failure.row - 2], segs[v.failure.row - 1])
      && JunctionFault(e, segs[v.failure.row - 2], segs[v.failure.row - 1]) == Some(v.failure.fault)
      && forall j :: from <= j < v.failure.row - 1 ==> SharedJunction(e, segs[j - 1], segs[j])
    decreases |segs| - from
  {
    if from >= |segs| then Pass
    else match JunctionFault(e, segs[from - 1], segs[from])
      case Some(f) => Fail(AtRow(from + 1, f))
      case None => ContinuityFrom(e, segs, from + 1)
  }

  /** `validate_continuity`: the continuity loop over `range(1, len)`, so a
      single row always passes. */
  function ValidateContinuity<E>(e: Engine<E>, segs: seq<Segment>): (v: Verdict)
    ensures |segs| <= 1 ==> v == Pass
  {
    ContinuityFrom(e, segs, 1)
  }

  // ---------------------------------------------------------------------------
  // Value continuity

  /** Everything the junction comparison parses does parse, and the two
      values it compares are equal. The comparison is crossed: the earlier
      formula is evaluated at the later row's start, and the later formula at
      the earlier row's end. */
  predicate SameValueAtJunction<E(==)>(e: Engine<E>, prev: Segment, cur: Segment) {
    && Parses(e, prev.formula)
    && Parses(e, cur.formula)
    && Parses(e, prev.endX)
    && Parses(e, cur.startX)
    && ValueAt(e, prev.formula, cur.startX) == ValueAt(e, cur.formula, prev.endX)
  }

  /** When the two junction texts parse to the same expression, the crossed
      comparison is the same as evaluating each formula at its own bound. */
  lemma CrossedComparisonAtSharedPoint<E>(e: Engine<E>, prev: Segment, cur: Segment)
    requires e.sympify(prev.endX) == e.sympify(cur.startX)
    ensures SameValueAtJunction(e, prev, cur) <==>
      && Parses(e, prev.formula)
      && Parses(e, cur.formula)
      && Parses(e, prev.endX)
      && ValueAt(e, prev.formula, prev.endX) == ValueAt(e, cur.formula, cur.startX)
  {
  }

  /** The body of the junction-value loop: both formulas are parsed, then
      the earlier end and the later start, then the earlier formula at the
      later start is compared with the later formula at the earlier end. */
  function TransitionFault<E(==)>(e: Engine<E>, prev: Segment, cur: Segment): (r: Option<Fault>)
    ensures r.None? <==> SameValueAtJunction(e, prev, cur)
    ensures r.Some? ==> r.value.Unparsable? || r.value.Discontinuity?
    ensures r.Some? && r.value.Unparsable? ==>
      !Parses(e, prev.formula) || !Parses(e, cur.formula) || !Parses(e, prev.endX) || !Parses(e, cur.startX)
  {
    match e.sympify(prev.formula)
    case None => Some(Unparsable(prev.formula))
    case Some(f) =>
      match e.sympify(cur.formula)
      case None => Some(Unparsable(cur.formula))
      case Some(g) =>
        match e.sympify(prev.endX)
        case None => Some(Unparsable(prev.endX))
        case Some(p) =>
          match e.sympify(cur.startX)
          case None => Some(Unparsable(cur.startX))
          case Some(q) => if e.subs(f, q) != e.subs(g, p) then Some(Discontinuity) else None
  }

  /** The junction-value loop from the junction before index `from` on:
      rejects at the first row where the previous formula at this start
      differs from this formula at the previous end. */
  function SmoothTransitionFrom<E(==)>(e: Engine<E>, segs: seq<Segment>, from: nat): (v: Verdict)
    requires 1 <= from
    ensures v.Pass? <==> forall i :: from <= i < |segs| ==> SameValueAtJunction(e, segs[i - 1], segs[i])
    ensures v.Fail? ==>
      && v.failure.AtRow?
      && from < v.failure.row <= |segs|
      && !SameValueAtJunction(e, segs[v.failure.row - 2], segs[v.failure.row - 1])
      && TransitionFault(e, segs[v.failure.row - 2], segs[v.failure.row - 1]) == Some(v.failure.fault)
      && forall j :: from <= j < v.failure.row - 1 ==> SameValueAtJunction(e, segs[j - 1], segs[j])
    decreases |segs| - from
  {
    if from >= |segs| then Pass
    else match TransitionFault(e, segs[from - 1], segs[from])
      case Some(f) => Fail(AtRow(from + 1, f))
      case None => SmoothTransitionFrom(e, segs, from + 1)
  }

  /** `validate_smooth_transition`: the junction-value loop over
      `range(1, len)`, so a single row always passes. */
  function ValidateSmoothTransition<E(==)>(e: Engine<E>, segs: seq<Segment>): (v: Verdict)
    ensures |segs| <= 1 ==> v == Pass
  {
    SmoothTransitionFrom(e, segs, 1)
  }

  // ---------------------------------------------------------------------------
  // The whole curve

  /** The formula column of a segment sequence. */
  function Formulas(segs: seq<Segment>): (fs: seq<string>)
    ensures |fs| == |segs|
    ensures forall i :: 0 <= i < |segs| ==> fs[i] == segs[i].formula
  {
    seq(|segs|, i requires 0 <= i < |segs| => segs[i].formula)
  }

  /** The invariants of an accepted curve: every formula parses, every
      interval is ordered, adjacent intervals meet, and the crossed
      junction-value comparison holds at every junction. */
  predicate ValidCurve<E(==)>(e: Engine<E>, segs: seq<Segment>) {
    && (forall i :: 0 <= i < |segs| ==> Parses(e, segs[i].formula))
    && (forall i :: 0 <= i < |segs| ==> OrderedInterval(e, segs[i]))
    && (forall i :: 1 <= i < |segs| ==> SharedJunction(e, segs[i - 1], segs[i]))
    && (forall i :: 1 <= i < |segs| ==> SameValueAtJunction(e, segs[i - 1], segs[i]))
  }

  /** The bound checks of `validate_csv`, in order: intervals, then domain
      continuity, then value continuity. A failure is the verdict of the
      first stage that fails, and every earlier stage passed. */
  function ValidateBounds<E(==)>(e: Engine<E>, segs: seq<Segment>): (v: Verdict)
    ensures v.Pass? <==>
      ValidateXValues(e, segs).Pass? && ValidateContinuity(e, segs).Pass? && ValidateSmoothTransition(e, segs).Pass?
    ensures v.Fail? ==> v.failure.AtRow? && 1 <= v.failure.row <= |segs|
    ensures v.Fail? && (v.failure.fault.Unresolvable? || v.failure.fault.InvertedInterval?) ==>
      v == ValidateXValues(e, segs)
    ensures v.Fail? && v.failure.fault.DomainGap? ==>
      v == ValidateContinuity(e, segs) && ValidateXValues(e, segs).Pass?
    ensures v.Fail? && (v.failure.fault.Discontinuity? || v.failure.fault.Unparsable?) ==>
      && v == ValidateSmoothTransition(e, segs)
      && ValidateXValues(e, segs).Pass?
      && ValidateContinuity(e, segs).Pass?
  {
    OrderedCurveHasOnlyGaps(e, segs);
    AndThen(ValidateXValues(e, segs), AndThen(ValidateContinuity(e, segs), ValidateSmoothTransition(e, segs)))
  }

  /** `validate_csv` over a table that has all three columns: formulas, then
      intervals, then domain continuity, then value continuity. Only the
      first failing stage is reported, at its first failing row: that row
      fails the stage and every earlier row passes it. */
  function ValidateCurve<E(==)>(e: Engine<E>, segs: seq<Segment>): (v: Verdict)
    ensures v.Pass? <==> ValidCurve(e, segs)
    ensures v.Fail? ==> v.failure.AtRow? && 1 <= v.failure.row <= |segs|
    ensures v.Fail? ==> !v.failure.fault.InvalidBound? && !v.failure.fault.Unparsable?
    ensures v.Fail? && !v.failure.fault.InvalidFormula? ==>
      forall i :: 0 <= i < |segs| ==> Parses(e, segs[i].formula)
    ensures v.Fail? && (v.failure.fault.DomainGap? || v.failure.fault.Discontinuity?) ==>
      forall i :: 0 <= i < |segs| ==> OrderedInterval(e, segs[i])
    ensures v.Fail? && v.failure.fault.Discontinuity? ==>
      forall i :: 1 <= i < |segs| ==> SharedJunction(e, segs[i - 1], segs[i])
    ensures v.Fail? && v.failure.fault.InvalidFormula? ==> v == ValidateFormulas(e, Formulas(segs))
    ensures v.Fail? && (v.failure.fault.Unresolvable? || v.failure.fault.InvertedInterval?) ==>
      v == ValidateXValues(e, segs)
    ensures v.Fail? && v.failure.fault.DomainGap? ==> v == ValidateContinuity(e, segs)
    ensures v.Fail? && v.failure.fault.Discontinuity? ==> v == ValidateSmoothTransition(e, segs)
  {
    var formulas := ValidateFormulas(e, Formulas(segs));
    if formulas.Fail? then formulas
    else
      OrderedCurveHasOnlyGaps(e, segs);
      ConnectedCurveHasOnlyDiscontinuities(e, segs);
      ValidateBounds(e, segs)
  }

  /** Once the interval check passes, every bound resolves, so the
      continuity check can only fail on a gap. */
  lemma OrderedCurveHasOnlyGaps<E>(e: Engine<E>, segs: seq<Segment>)
    ensures ValidateXValues(e, segs).Pass? && ValidateContinuity(e, segs).Fail? ==>
      ValidateContinuity(e, segs).failure.fault.DomainGap?
  {
  }

  /** Once every formula parses and the interval check passes, everything the
      junction-value check parses does parse, so it can only fail on a
      discontinuity. */
  lemma ConnectedCurveHasOnlyDiscontinuities<E>(e: Engine<E>, segs: seq<Segment>)
    requires forall i :: 0 <= i < |segs| ==> Parses(e, segs[i].formula)
    ensures ValidateXValues(e, segs).Pass? && ValidateSmoothTransition(e, segs).Fail? ==>
      ValidateSmoothTransition(e, segs).failure.fault.Discontinuity?
  {
  }

  // ---------------------------------------------------------------------------
  // Consequences for an accepted curve

  /** The resolved start of a segment. */
  function Start<E>(e: Engine<E>, s: Segment): real
    requires OrderedInterval(e, s)
  {
    Resolve(e, s.startX).value
  }

  /** The resolved end of a segment. */
  function End<E>(e: Engine<E>, s: Segment): real
    requires OrderedInterval(e, s)
  {
    Resolve(e, s.endX).value
  }

  /** In an accepted curve the intervals follow one another: every later
      segment starts at or after the end of every earlier one, and strictly
      after its start. */
  lemma {:induction false} AcceptedIntervalsIncrease<E>(e: Engine<E>, segs: seq<Segment>, i: nat, j: nat)
    requires ValidCurve(e, segs)
    requires i < j < |segs|
    ensures End(e, segs[i]) <= Start(e, segs[j])
    ensures Start(e, segs[i]) < Start(e, segs[j])
    decreases j - i
  {
    assert OrderedInterval(e, segs[i]) && OrderedInterval(e, segs[j - 1]);
    assert SharedJunction(e, segs[j - 1], segs[j]);
    if j > i + 1 {
      AcceptedIntervalsIncrease(e, segs, i, j - 1);
    }
  }

  /** In an accepted curve the intervals leave no hole: every point between
      the first start and the end of segment `k` lies in some segment up to `k`. */
  lemma {:induction false} AcceptedCurveCovers<E>(e: Engine<E>, segs: seq<Segment>, k: nat, x: real)
    requires ValidCurve(e, segs)
    requires k < |segs|
    requires Start(e, segs[0]) <= x <= End(e, segs[k])
    ensures exists i :: 0 <= i <= k && Start(e, segs[i]) <= x <= End(e, segs[i])
    decreases k
  {
    if k == 0 {
      assert Start(e, segs[0]) <= x <= End(e, segs[0]);
    } else {
      assert OrderedInterval(e, segs[k - 1]);
      assert SharedJunction(e, segs[k - 1], segs[k]);
      if x <= End(e, segs[k - 1]) {
        AcceptedCurveCovers(e, segs, k - 1, x);
        var i :| 0 <= i <= k - 1 && Start(e, segs[i]) <= x <= End(e, segs[i]);
        assert 0 <= i <= k;
      } else {
        assert Start(e, segs[k]) <= x <= End(e, segs[k]);
      }
    }
  }
}

=== FILE: roller_coaster.dfy ===
/**
 The table-level entry points of the roller-coaster validator: reading checks
 on the whole table, `validate_formula_column`, `validate_csv`, and the run
 that chains the two before anything is drawn. A failure that the program
 reports and exits on, and an exception it lets escape, both become a
 `Failure` here; the run stops at the first one.
 */
module RollerCoaster {
  import opened Symbolic
  import opened Checks

  /** One table row: column name to cell text. */
  type Row = map<string, string>

  /** A table as read from the file: its header and its rows. */
  datatype Frame = Frame(columns: seq<string>, rows: seq<Row>)

  /** Every row has a cell under every column of the header. */
  predicate Rectangular(f: Frame) {
    forall i, c :: 0 <= i < |f.rows| && c in f.columns ==> c in f.rows[i]
  }

  /** A table is rectangular by construction. */
  type DataFrame = f: Frame | Rectangular(f) witness Frame([], [])

  /** The table is empty when it has no rows or no columns. */
  predicate IsEmpty(t: DataFrame) {
    |t.rows| == 0 || |t.columns| == 0
  }

  /** The three columns the curve is read from. */
  predicate HasRequiredColumns(t: DataFrame) {
    "formula" in t.columns && "start_x" in t.columns && "end_x" in t.columns
  }

  /** The cells of one column, top to bottom. */
  function Column(t: DataFrame, c: string): (col: seq<string>)
    requires c in t.columns
    ensures |col| == |t.rows|
    ensures forall i :: 0 <= i < |t.rows| ==> c in t.rows[i] && col[i] == t.rows[i][c]
  {
    seq(|t.rows|, i requires 0 <= i < |t.rows| => t.rows[i][c])
  }

  /** The rows of a table with the three columns, read as segments. */
  function SegmentsOf(t: DataFrame): (segs: seq<Segment>)
    requires HasRequiredColumns(t)
    ensures |segs| == |t.rows|
    ensures Formulas(segs) == Column(t, "formula")
    ensures forall i :: 0 <= i < |t.rows| ==>
      segs[i] == Segment(t.rows[i]["formula"], t.rows[i]["start_x"], t.rows[i]["end_x"])
  {
    var segs := seq(|t.rows|, i requires 0 <= i < |t.rows| =>
      Segment(t.rows[i]["formula"], t.rows[i]["start_x"], t.rows[i]["end_x"]));
    assert Formulas(segs) == Column(t, "formula");
    segs
  }

  /** `read_and_validate_csv` after the file has been read: the table is
      non-empty, has the three columns (checked in the order formula,
      start_x, end_x), every formula parses, and every bound of every row
      reads as a number or an expression. On success the table is handed
      back as it came in. */
  function ReadAndValidateCsv<E>(e: Engine<E>, t: DataFrame): (r: Result<DataFrame>)
    ensures r.Ok? ==> r.value == t
    ensures r.Ok? <==>
      && !IsEmpty(t)
      && HasRequiredColumns(t)
      && (forall i :: 0 <= i < |t.rows| ==> Parses(e, t.rows[i]["formula"]))
      && (forall i :: 0 <= i < |t.rows| ==>
            XValueFault(e, t.rows[i]["start_x"]).None? && XValueFault(e, t.rows[i]["end_x"]).None?)
    ensures r == Err(EmptyInput) <==> IsEmpty(t)
    ensures r == Err(MissingColumn("formula")) <==> !IsEmpty(t) && "formula" !in t.columns
    ensures r == Err(MissingColumn("start_x")) <==>
      !IsEmpty(t) && "formula" in t.columns && "start_x" !in t.columns
    ensures r == Err(MissingColumn("end_x")) <==>
      !IsEmpty(t) && "formula" in t.columns && "start_x" in t.columns && "end_x" !in t.columns
    ensures r.Err? && r.failure.MissingColumn? ==> !IsEmpty(t) && !HasRequiredColumns(t)
    ensures r.Err? && r.failure.AtRow? ==>
      && !IsEmpty(t)
      && HasRequiredColumns(t)
      && 1 <= r.failure.row <= |t.rows|
      && (r.failure.fault.InvalidFormula? || r.failure.fault.InvalidBound?)
    ensures r.Err? && r.failure.AtRow? && r.failure.fault.InvalidBound? ==>
      forall i :: 0 <= i < |t.rows| ==> Parses(e, t.rows[i]["formula"])
    ensures r.Err? && r.failure.AtRow? && r.failure.fault.InvalidFormula? ==>
      var k := r.failure.row - 1;
      && !Parses(e, t.rows[k]["formula"])
      && r.failure.fault == InvalidFormula(t.rows[k]["formula"])
      && forall j :: 0 <= j < k ==> Parses(e, t.rows[j]["formula"])
    ensures r.Err? && r.failure.AtRow? && r.failure.fault.InvalidBound? ==>
      var k := r.failure.row - 1;
      && BoundFault(e, SegmentsOf(t)[k]) == Some(r.failure.fault)
      && forall j :: 0 <= j < k ==> BoundFault(e, SegmentsOf(t)[j]).None?
  {
    if IsEmpty(t) then Err(EmptyInput)
    else if "formula" !in t.columns then Err(MissingColumn("formula"))
    else if "start_x" !in t.columns then Err(MissingColumn("start_x"))
    else if "end_x" !in t.columns then Err(MissingColumn("end_x"))
    else
      var formulas := ValidateFormulas(e, Column(t, "formula"));
      var bounds := ValidateBoundSyntax(e, SegmentsOf(t));
      if formulas.Fail? then
        assert Column(t, "formula")[formulas.failure.row - 1] == t.rows[formulas.failure.row - 1]["formula"];
        Err(formulas.failure)
      else if bounds.Fail? then
        assert BoundFault(e, SegmentsOf(t)[bounds.failure.row - 1]) == Some(bounds.failure.fault);
        Err(bounds.failure)
      else Ok(t)
  }

  /** `validate_formula_column`: a missing formula column is reported before
      any row is looked at; otherwise the first formula that does not parse
      is rejected. */
  function ValidateFormulaColumn<E>(e: Engine<E>, t: DataFrame): (v: Verdict)
    ensures "formula" !in t.columns ==> v == Fail(MissingColumn("formula"))
    ensures v.Pass? <==>
      "formula" in t.columns && forall i :: 0 <= i < |t.rows| ==> Parses(e, t.rows[i]["formula"])
    ensures v.Fail? && "formula" in t.columns ==>
      && v.failure.AtRow?
      && 1 <= v.failure.row <= |t.rows|
      && v.failure.fault == InvalidFormula(t.rows[v.failure.row - 1]["formula"])
      && !Parses(e, t.rows[v.failure.row - 1]["formula"])
      && forall j :: 0 <= j < v.failure.row - 1 ==> Parses(e, t.rows[j]["formula"])
  {
    if "formula" !in t.columns then Fail(MissingColumn("formula"))
    else ValidateFormulas(e, Column(t, "formula"))
  }

  /** `validate_csv`: the formula column, then the interval, continuity and
      junction-value loops. Those loops look up `start_x` and then `end_x`
      on the first row, so a missing bound column fails there, and is never
      noticed when the table has no rows. */
  function ValidateCsv<E(==)>(e: Engine<E>, t: DataFrame): (v: Verdict)
    ensures "formula" !in t.columns ==> v == Fail(MissingColumn("formula"))
    ensures "formula" in t.columns && |t.rows| == 0 ==> v == Pass
    ensures "formula" in t.columns && |t.rows| > 0 && "start_x" !in t.columns ==>
      && v.Fail?
      && (v.failure == MissingColumn("start_x") <==>
            forall i :: 0 <= i < |t.rows| ==> Parses(e, t.rows[i]["formula"]))
    ensures "formula" in t.columns && |t.rows| > 0 && "start_x" in t.columns && "end_x" !in t.columns ==>
      && v.Fail?
      && (v.failure == MissingColumn("end_x") <==>
            forall i :: 0 <= i < |t.rows| ==> Parses(e, t.rows[i]["formula"]))
    ensures ValidateFormulaColumn(e, t).Fail? ==> v == ValidateFormulaColumn(e, t)
    ensures HasRequiredColumns(t) ==> v == ValidateCurve(e, SegmentsOf(t))
    ensures HasRequiredColumns(t) ==> (v.Pass? <==> ValidCurve(e, SegmentsOf(t)))
  {
    var formulas := ValidateFormulaColumn(e, t);
    if formulas.Fail? then formulas
    else if |t.rows| == 0 then Pass
    else if "start_x" !in t.columns then Fail(MissingColumn("start_x"))
    else if "end_x" !in t.columns then Fail(MissingColumn("end_x"))
    else ValidateBounds(e, SegmentsOf(t))
  }

  /** The table is a valid curve: non-empty, with the three columns, and its
      rows satisfy every invariant of an accepted curve. */
  predicate Accepted<E(==)>(e: Engine<E>, t: DataFrame) {
    && !IsEmpty(t)
    && HasRequiredColumns(t)
    && ValidCurve(e, SegmentsOf(t))
  }

  /** The program up to drawing: `read_and_validate_csv`, then `validate_csv`
      on what it returned. It succeeds exactly on valid curves, returns the
      table unchanged, and otherwise reports the first check that failed:
      a formula or bound fault is the reader's, any other row fault is the
      one `ValidateCurve` reports after the reader accepted the table. */
  function Run<E(==)>(e: Engine<E>, t: DataFrame): (r: Result<DataFrame>)
    ensures r.Ok? ==> r.value == t
    ensures r.Ok? <==> Accepted(e, t)
    ensures r == Err(EmptyInput) <==> IsEmpty(t)
    ensures r.Err? && r.failure.MissingColumn? ==> !IsEmpty(t) && !HasRequiredColumns(t)
    ensures r.Err? && r.failure.MissingColumn? ==> r == ReadAndValidateCsv(e, t)
    ensures r.Err? && r.failure.AtRow? ==>
      && !IsEmpty(t)
      && HasRequiredColumns(t)
      && 1 <= r.failure.row <= |t.rows|
      && !r.failure.fault.Unparsable?
    ensures r.Err? && r.failure.AtRow? && !r.failure.fault.InvalidFormula? ==>
      forall i :: 0 <= i < |t.rows| ==> Parses(e, t.rows[i]["formula"])
    ensures r.Err? && r.failure.AtRow? && HasRequiredColumns(t) ==>
      (r.failure.fault.DomainGap? || r.failure.fault.Discontinuity?) ==>
      forall i :: 0 <= i < |t.rows| ==> OrderedInterval(e, SegmentsOf(t)[i])
    ensures r.Err? && r.failure.AtRow? && HasRequiredColumns(t) && r.failure.fault.Discontinuity? ==>
      forall i :: 1 <= i < |t.rows| ==> SharedJunction(e, SegmentsOf(t)[i - 1], SegmentsOf(t)[i])
    ensures r.Err? && r.failure.AtRow? && (r.failure.fault.InvalidFormula? || r.failure.fault.InvalidBound?) ==>
      r == ReadAndValidateCsv(e, t)
    ensures r.Err? && r.failure.AtRow? && HasRequiredColumns(t) ==>
      !r.failure.fault.InvalidFormula? && !r.failure.fault.InvalidBound? ==>
      && ReadAndValidateCsv(e, t) == Ok(t)
      && ValidateCurve(e, SegmentsOf(t)) == Fail(r.failure)
  {
    match ReadAndValidateCsv(e, t)
    case Err(f) => Err(f)
    case Ok(checked) =>
      match ValidateCsv(e, checked)
      case Fail(f) => Err(f)
      case Pass => Ok(checked)
  }
}

=== FILE: scenarios.dfy ===
/**
 The tables of the repository's unit tests, replayed against a small
 stand-in for the symbolic engine. `ToyEngine` knows the handful of
 expressions those tables use: `x**2` simplifies once a number is
 substituted, `sin(x) + cos(x)` stays symbolic, and a free `x` has no
 numeric value. It also knows `pi`, whose numeric value is the literal
 `3.141592653589793` although the two are different expressions, and
 `sin(x)`, which simplifies to 0 only at `pi`.

 The stand-in encodes what the tests expect, not everything sympy does:
 it refuses to parse `invalid_value`, as roller_coaster_test.py expects,
 whereas sympy's parser reads an unknown name as a symbol. It also leaves
 `sin` of a float unevaluated, where sympy gives a float.
 */
module Scenarios {
  import opened Symbolic
  import opened Checks
  import opened RollerCoaster

  datatype Expr = Num(v: real) | X | Pi | Square(arg: Expr) | SinPlusCos(arg: Expr) | Sin(arg: Expr)

  function ToySympify(text: string): Option<Expr> {
    if text == "x" then Some(X)
    else if text == "x**2" then Some(Square(X))
    else if text == "sin(x) + cos(x)" then Some(SinPlusCos(X))
    else if text == "sin(x)" then Some(Sin(X))
    else if text == "pi" then Some(Pi)
    else match ToyParseFloat(text)
      case Some(v) => Some(Num(v))
      case None => None
  }

  function ToyParseFloat(text: string): Option<real> {
    if text == "0" then Some(0.0)
    else if text == "2" then Some(2.0)
    else if text == "3" then Some(3.0)
    else if text == "4" then Some(4.0)
    else if text == "3.141592653589793" then Some(PiLiteral)
    else None
  }

  /** The float nearest to pi. */
  const PiLiteral: real := 3.141592653589793

  function ToyToFloat(expr: Expr): Option<real> {
    match expr
    case Num(v) => Some(v)
    case Pi => Some(PiLiteral)
    case _ => None
  }

  function ToySubs(formula: Expr, point: Expr): Expr {
    match formula
    case Num(v) => Num(v)
    case X => point
    case Pi => Pi
    case Square(a) =>
      var b := ToySubs(a, point);
      if b.Num? then Num(b.v * b.v) else Square(b)
    case SinPlusCos(a) => SinPlusCos(ToySubs(a, point))
    case Sin(a) =>
      var b := ToySubs(a, point);
      if b == Pi then Num(0.0) else Sin(b)
  }

  function ToyEngine(): Engine<Expr> {
    Engine(ToySympify, ToyToFloat, ToySubs, ToyParseFloat)
  }

  /** The three-column table of the tests, one row per segment. */
  function Table(formulas: seq<string>, starts: seq<string>, ends: seq<string>): (t: DataFrame)
    requires |formulas| == |starts| == |ends|
    ensures HasRequiredColumns(t) && |t.rows| == |formulas|
    ensures forall i :: 0 <= i < |formulas| ==>
      SegmentsOf(t)[i] == Segment(formulas[i], starts[i], ends[i])
  {
    Frame(["formula", "start_x", "end_x"],
      seq(|formulas|, i requires 0 <= i < |formulas| =>
        map["formula" := formulas[i], "start_x" := starts[i], "end_x" := ends[i]]))
  }

  /** `validate_x_value` accepts a number and an expression, even one that
      has no numeric value, and rejects text that is neither. The stand-in
      treats `invalid_value` as unparsable, which is what the test expects. */
  lemma XValueCases()
    ensures XValueFault(ToyEngine(), "3").None?
    ensures XValueFault(ToyEngine(), "x**2").None?
    ensures Resolve(ToyEngine(), "x**2").None?
    ensures XValueFault(ToyEngine(), "invalid_value") == Some(InvalidBound("invalid_value"))
  {
  }

  /** A table without a formula column is rejected before any row is read. */
  lemma FormulaColumnMissing()
    ensures ValidateFormulaColumn(ToyEngine(), Frame(["start_x", "end_x"],
      [map["start_x" := "0", "end_x" := "2"], map["start_x" := "2", "end_x" := "4"]]))
      == Fail(MissingColumn("formula"))
  {
  }

  /** Row 1 runs from 4 down to 0, so the interval check stops there. */
  lemma InvertedFirstRow()
    ensures ValidateXValues(ToyEngine(), [Segment("x**2", "4", "0"), Segment("sin(x) + cos(x)", "2", "2")])
      == Fail(AtRow(1, InvertedInterval(4.0, 0.0)))
  {
  }

  /** Row 2 starts at 3 while row 1 ends at 2. */
  lemma GapAtSecondRow()
    ensures ValidateContinuity(ToyEngine(), [Segment("x**2", "0", "2"), Segment("sin(x) + cos(x)", "3", "4")])
      == Fail(AtRow(2, DomainGap(2.0, 3.0)))
  {
  }

  /** The earlier formula `x**2` at the later start 2 is 4, while the later
      formula `sin(x) + cos(x)` at the earlier end 3 stays symbolic. */
  lemma DiscontinuityAtSecondRow()
    ensures ValidateSmoothTransition(ToyEngine(), [Segment("x**2", "0", "3"), Segment("sin(x) + cos(x)", "2", "4")])
      == Fail(AtRow(2, Discontinuity))
  {
  }

  /** The two `x**2` pieces as segments form a valid curve. */
  lemma SquareTwiceIsValid()
    ensures ValidCurve(ToyEngine(), [Segment("x**2", "0", "2"), Segment("x**2", "2", "4")])
  {
    var segs := [Segment("x**2", "0", "2"), Segment("x**2", "2", "4")];
    assert SameValueAtJunction(ToyEngine(), segs[0], segs[1]);
  }

  /** Two pieces of `x**2` meeting at 2 form an accepted curve, and the run
      hands the table back unchanged. */
  lemma SquareTwiceIsAccepted()
    ensures Run(ToyEngine(), Table(["x**2", "x**2"], ["0", "2"], ["2", "4"]))
      == Ok(Table(["x**2", "x**2"], ["0", "2"], ["2", "4"]))
  {
    var t := Table(["x**2", "x**2"], ["0", "2"], ["2", "4"]);
    assert SegmentsOf(t) == [Segment("x**2", "0", "2"), Segment("x**2", "2", "4")];
    SquareTwiceIsValid();
  }

  /** The reader accepts a bound that is an expression in `x`, and the run
      then stops when that bound has no numeric value. */
  lemma SymbolicBoundPassesReaderButNotRun()
    ensures ReadAndValidateCsv(ToyEngine(), Table(["x**2"], ["x**2"], ["2"])).Ok?
    ensures Run(ToyEngine(), Table(["x**2"], ["x**2"], ["2"]))
      == Err(AtRow(1, Unresolvable("x**2")))
  {
  }

  /** The `pi` junction as segments: continuity holds, each formula at its
      own bound is 0, and the crossed comparison fails at row 2. */
  lemma PiJunction()
    ensures ValidateContinuity(ToyEngine(), [Segment("sin(x)", "0", "pi"), Segment("0", "3.141592653589793", "4")])
      == Pass
    ensures ValueAt(ToyEngine(), "sin(x)", "pi") == ValueAt(ToyEngine(), "0", "3.141592653589793")
    ensures ValidateCurve(ToyEngine(), [Segment("sin(x)", "0", "pi"), Segment("0", "3.141592653589793", "4")])
      == Fail(AtRow(2, Discontinuity))
  {
    var segs := [Segment("sin(x)", "0", "pi"), Segment("0", "3.141592653589793", "4")];
    assert ToySubs(Sin(X), Num(PiLiteral)) == Sin(Num(PiLiteral));
    assert TransitionFault(ToyEngine(), segs[0], segs[1]) == Some(Discontinuity);
  }

  /** Row 1 ends at `pi` and row 2 starts at its float value, so the domain
      check passes. The junction-value check then compares `sin(x)` at the
      literal with `0` at `pi`. The stand-in engine leaves `sin` of the
      literal unevaluated (sympy evaluates it to a float near 1.2e-16,
      which is not 0 either), so the run stops at row 2, although each
      formula at its own bound is 0. */
  lemma CrossedJunctionRejectsPi()
    ensures ValidateContinuity(ToyEngine(), [Segment("sin(x)", "0", "pi"), Segment("0", "3.141592653589793", "4")])
      == Pass
    ensures ValueAt(ToyEngine(), "sin(x)", "pi") == ValueAt(ToyEngine(), "0", "3.141592653589793")
    ensures Run(ToyEngine(), Table(["sin(x)", "0"], ["0", "3.141592653589793"], ["pi", "4"]))
      == Err(AtRow(2, Discontinuity))
  {
    var t := Table(["sin(x)", "0"], ["0", "3.141592653589793"], ["pi", "4"]);
    assert SegmentsOf(t) == [Segment("sin(x)", "0", "pi"), Segment("0", "3.141592653589793", "4")];
    PiJunction();
  }
}

=== FILE: symbolic.dfy ===
/**
 The symbolic-algebra capability the curve validator consumes. The validator
 never looks inside an expression: it parses text into an expression, asks for
 its floating-point value, substitutes a value for `x` and compares two
 expressions for equality. Those four questions are the fields of `Engine`,
 so every property proved about the validator holds for every engine.
 */
module Symbolic {

  datatype Option<+T> = None | Some(value: T)

  /** A symbolic engine over expressions of type `E`.
      - `sympify(text)` parses text into an expression; `None` when parsing raises.
      - `toFloat(expr)` is `float(expr)`; `None` when the expression has no
        numeric value (a free symbol remains, for instance).
      - `subs(formula, point)` substitutes `point` for the variable `x`.
      - `parseFloat(text)` is the language's own `float()` on text; `None`
        when the text is not a numeric literal. */
  datatype Engine<!E> = Engine(
    sympify: string -> Option<E>,
    toFloat: E -> Option<real>,
    subs: (E, E) -> E,
    parseFloat: string -> Option<real>)

  /** The text parses as a symbolic expression. */
  predicate Parses<E>(e: Engine<E>, text: string) {
    e.sympify(text).Some?
  }

  /** The text reads directly as a number. */
  predicate IsNumber<E>(e: Engine<E>, text: string) {
    e.parseFloat(text).Some?
  }

  /** `float(sympify(text))`: the numeric value of a bound, or `None` when
      either step raises. A bound that resolves always parses. */
  function Resolve<E>(e: Engine<E>, text: string): (r: Option<real>)
    ensures r.Some? ==> Parses(e, text)
    ensures !Parses(e, text) ==> r == None
  {
    match e.sympify(text)
    case None => None
    case Some(expr) => e.toFloat(expr)
  }

  /** `sympify(formula).subs(x, sympify(point))`: the formula's value at a
      bound, kept symbolic. */
  function ValueAt<E>(e: Engine<E>, formula: string, point: string): E
    requires Parses(e, formula) && Parses(e, point)
  {
    e.subs(e.sympify(formula).value, e.sympify(point).value)
  }
}
